=== FILE: README.md ===
# HeartRateStreamer core, modelled in Dafny

HeartRateStreamer is a Wear OS app that reads heart-rate samples on the watch, shows them, and posts each one to an HTTP endpoint the user sets. A small Python server receives them. This project models four pieces of that logic and proves properties about them:

- `sender.dfy`, module `HeartRateSender`. This is the throttled uplink, the `HeartRateSender` object. `Sender` is a class with the object's fields: `endpoint`, `lastSentAt`, `lastJob` and whether a status listener is set. It also has a `jobs` record of launched network jobs and a `log` of the statuses the listener received. The clock reading is a parameter of `Send`. A launched job is finished later by `Complete`, which takes the job's outcome as input: an HTTP response code, a cancellation, or another exception. Each method is proved against a step function on the value type `SenderState`. Lemmas about those step functions state the throttle, the reset and the status sequence, both for a single call and for whole runs of calls.
- `receiver.dfy`, module `Receiver`. This is the HTTP server in `HeartRateReciver/main.py`. `HeatRateManager` is the two-field store. `FirstPresent` is the first-key-present search over a priority list of keys, and the loop `LookupFirst` is proved equal to it. `Handle` maps a store, a method, a path and a parsed JSON object to a response and the new store. `Serve` is the same handler acting on a manager object.
- `permissions.dfy`, module `Permissions`. This is `HeartRatePermissionManager`. Its inputs are the SDK level and, at each check, the set of permissions the platform reports as granted. The manager holds one `onAllGranted` slot. A callback is modelled as an identifier, and every callback that runs is logged. The main lemma is that a callback never runs twice, over any sequence of clicks, re-checks and dialog results.
- `screen.dfy`, module `Screen`. This covers the values `HeartRateScreen` derives from the two statuses (labels and button states) and the activity's UI state, which its listeners assign.
- `statuses.dfy` holds `HeartRateStatus`, `ConnectionStatus` and an `Option` type.

Behaviour of the uplink worth knowing, as the code has it:

- Success is a response code in `200..299` with both ends included (`HeartRateSender.kt:77`).
- `lastSentAt` starts at `0` and `reset` puts it back to `0` (`HeartRateSender.kt:34`, `:99`). It is never set to a "never sent" value. So a send whose clock reading is below 1000 is dropped, both on a fresh sender and right after a reset (`ResetDoesNotUnblockSmallClock`).
- An accepted send overwrites `lastJob` without cancelling the previous job (`HeartRateSender.kt:58`). A superseded job still reports `Ok` or `Error` when it finishes, after the newer send's `Sending` (`SupersededJobStillReports`).
- The job reads `endpoint` and the listener slot when it runs, not when it is launched (`HeartRateSender.kt:61`, `:79`). So `Complete` returns the endpoint current at completion, and a `setEndpoint` while a job is pending changes where that job posts.

## Model

| member | source | states |
|---|---|---|
| `HeartRateSender.InitialState` | HeartRateStreamer/app/src/main/java/com/xuan25/heartratestreamer/HeartRateSender.kt:21-37 | the object starts with no job, `lastSentAt = 0`, an empty endpoint and no listener, and this state satisfies the `lastJob` invariant |
| `HeartRateSender.Classify` | HeartRateStreamer/app/src/main/java/com/xuan25/heartratestreamer/HeartRateSender.kt:76-90 | a job's outcome gives `Ok` iff it is a response code in 200..299 inclusive, `Idle` iff it is a cancellation, and `Error` for any other code or exception; it never gives `Sending` |
| `HeartRateSender.Sender.constructor` | HeartRateStreamer/app/src/main/java/com/xuan25/heartratestreamer/HeartRateSender.kt:21-37 | the singleton's fields start as the initial state |
| `HeartRateSender.Sender.SetEndpoint` | HeartRateStreamer/app/src/main/java/com/xuan25/heartratestreamer/HeartRateSender.kt:27-29 | only `endpoint` changes; the throttle, the jobs and the log are untouched |
| `HeartRateSender.Sender.SetStatusListener` | HeartRateStreamer/app/src/main/java/com/xuan25/heartratestreamer/HeartRateSender.kt:39-41 | only the listener slot changes |
| `HeartRateSender.Sender.Send` | HeartRateStreamer/app/src/main/java/com/xuan25/heartratestreamer/HeartRateSender.kt:43-58 | a call is accepted iff `now - lastSentAt >= 1000`; a dropped call leaves the whole state as it was; an accepted one stamps `lastSentAt = now` and launches a job whose body is `(bpm, now)`; the new state is `SendStep` of the old one |
| `HeartRateSender.Sender.Complete` | HeartRateStreamer/app/src/main/java/com/xuan25/heartratestreamer/HeartRateSender.kt:58-94 | a running job posts to the endpoint current when it runs, reports `Classify(outcome)` to the listener if one is set, and is then finished |
| `HeartRateSender.Sender.Reset` | HeartRateStreamer/app/src/main/java/com/xuan25/heartratestreamer/HeartRateSender.kt:97-101 | cancels the job in `lastJob`, sets `lastSentAt = 0` and emits `Idle`; `lastJob` and the endpoint are kept |
| `HeartRateSender.ThrottledSendIsNoop` | HeartRateStreamer/app/src/main/java/com/xuan25/heartratestreamer/HeartRateSender.kt:44-47 | a send less than 1000 ms after the last accepted one changes no field and emits nothing |
| `HeartRateSender.AcceptedSendStamps` | HeartRateStreamer/app/src/main/java/com/xuan25/heartratestreamer/HeartRateSender.kt:48-58 | an accepted send stores `now` in `lastSentAt`, puts the same `now` and `bpm` into the body, emits `Sending` when a listener is set, and makes the one new job `lastJob` |
| `HeartRateSender.AcceptedSendOpensWindow` | HeartRateStreamer/app/src/main/java/com/xuan25/heartratestreamer/HeartRateSender.kt:45-48 | after a send accepted at `now`, any send at a time before `now + 1000` is dropped |
| `HeartRateSender.AcceptedSendKeepsEarlierJobs` | HeartRateStreamer/app/src/main/java/com/xuan25/heartratestreamer/HeartRateSender.kt:58 | an accepted send replaces `lastJob` but leaves every earlier job as it was and cancels none |
| `HeartRateSender.SendThenCompleteEmits` | HeartRateStreamer/app/src/main/java/com/xuan25/heartratestreamer/HeartRateSender.kt:56-90 | an accepted send followed by its job's completion emits exactly `[Sending, x]` with `x` one of `Ok`, `Error`, `Idle`, or nothing when no listener is set |
| `HeartRateSender.ResetCancelsOnlyLastJob` | HeartRateStreamer/app/src/main/java/com/xuan25/heartratestreamer/HeartRateSender.kt:97-101 | reset touches only the newest job, zeroes the throttle and emits `Idle` even when there is no job |
| `HeartRateSender.ResetUnblocksThrottle` | HeartRateStreamer/app/src/main/java/com/xuan25/heartratestreamer/HeartRateSender.kt:97-99 | after a reset, a send at any clock reading of 1000 or more is accepted |
| `HeartRateSender.ResetDoesNotUnblockSmallClock` | HeartRateStreamer/app/src/main/java/com/xuan25/heartratestreamer/HeartRateSender.kt:34-47 | because the throttle restarts from 0, every send at a clock reading below 1000 is dropped after a reset and on a fresh sender; with `ResetUnblocksThrottle`, a send after a reset is accepted iff `now >= 1000` |
| `HeartRateSender.SettersTouchOnlyTheirField` | HeartRateStreamer/app/src/main/java/com/xuan25/heartratestreamer/HeartRateSender.kt:27-41 | `setEndpoint` and `setStatusListener` each change their own field and nothing else |
| `HeartRateSender.SupersededJobStillReports` | HeartRateStreamer/app/src/main/java/com/xuan25/heartratestreamer/HeartRateSender.kt:58-94 | for every valid state with a listener and any two accepted sends, the first job is neither cancelled nor finished, the second becomes `lastJob`, and completing the first with any outcome emits `Classify(outcome)` after both `Sending`s |
| `HeartRateSender.StepKeepsThrottled` | HeartRateStreamer/app/src/main/java/com/xuan25/heartratestreamer/HeartRateSender.kt:43-58 | every call except reset keeps the throttle invariant: `lastSentAt` is the newest job's timestamp, and neighbouring jobs are at least 1000 ms apart |
| `HeartRateSender.RunWithoutResetIsThrottled` | HeartRateStreamer/app/src/main/java/com/xuan25/heartratestreamer/HeartRateSender.kt:31-58 | over any run of sends, completions and setter calls with no reset, the throttle invariant holds at the end and no launched job is lost |
| `HeartRateSender.RunWithoutResetSpacesAllJobs` | HeartRateStreamer/app/src/main/java/com/xuan25/heartratestreamer/HeartRateSender.kt:31-58 | over such a run, any two launched jobs are at least 1000 ms apart in timestamp, whatever order the clock readings arrive in |
| `Receiver.FreshStore` | HeartRateReciver/main.py:51-53 | a fresh store holds heart rate `0.0` and timestamp `0` |
| `Receiver.HeatRateManager.constructor` | HeartRateReciver/main.py:51-53 | a new manager holds the fresh store |
| `Receiver.HeatRateManager.SetHeartRate` | HeartRateReciver/main.py:55-57 | both fields take the given values |
| `Receiver.HeatRateManager.GetHeartRate` | HeartRateReciver/main.py:65-66 | returns the stored heart rate |
| `Receiver.HeatRateManager.GetTimestamp` | HeartRateReciver/main.py:68-69 | returns the stored timestamp |
| `Receiver.SetThenGet` | HeartRateReciver/main.py:55-69 | after `set_heart_rate(h, t)` the getters return `h` and `t` |
| `Receiver.FirstPresent` | HeartRateReciver/main.py:143-157 | the result is absent iff no key of the list is in the payload; otherwise it is the payload's value at a key in the list with no earlier key of the list present |
| `Receiver.LookupFirst` | HeartRateReciver/main.py:143-146 | the `for ... break` loop returns the same value as `FirstPresent` |
| `Receiver.Extract` | HeartRateReciver/main.py:140-159 | the payload yields a new store iff both a heart-rate key and a timestamp key are present, and then it holds the first-present value of each |
| `Receiver.HeartRateKeyPriority` | HeartRateReciver/main.py:137-146 | `heartRate` wins over every other heart-rate key, even over `bpm`; with the four earlier keys absent, `bpm` decides |
| `Receiver.TimestampKeyPriority` | HeartRateReciver/main.py:138-154 | the timestamp comes from `timestamp`, else `time`, else `ts` |
| `Receiver.PostAnswers200` | HeartRateReciver/main.py:119-161 | a POST to a heart-rate path is answered 200 whether or not the keys are found; a missing heart-rate or timestamp key leaves the store unchanged; with both present the store takes the extracted pair |
| `Receiver.Handle` | HeartRateReciver/main.py:77-166 | every answer is 200 or 404; the store changes only on a POST to a heart-rate path whose payload yields a new store, and then becomes that store; a body is sent only on a 200 GET whose stored heart rate `:.0f` can format: a float, a bool, or an int that converts to a double; a GET of `/metrics` carries the Prometheus gauge with `METRIC_TARGET` and the stored heart rate when it can be formatted, and no body otherwise |
| `Receiver.Routing` | HeartRateReciver/main.py:77-166 | the answer is 200 iff the path is `/heart-rate-endpoint` or `/hr`, or the request is a GET of `/metrics`; every other request is answered 404 with no body and leaves the store unchanged; a GET never changes the store |
| `Receiver.GetAfterPost` | HeartRateReciver/main.py:79-107 | a GET of a heart-rate path or of `/metrics` after an accepted POST returns the heart rate that was posted (in the gauge, with the target) when `:.0f` can format it (a float, a bool, or an int of magnitude below 2^1024 - 2^970), and 200 with no body otherwise, because `:.0f` raises after the headers are sent |
| `Receiver.HugeIntHeartRateGivesEmptyBody` | HeartRateReciver/main.py:81-104 | an int heart rate of 2^1024 - 2^970 is stored as it is and both GETs then answer 200 with an empty body, while one less is still reported |
| `Receiver.StringHeartRateGivesEmptyBody` | HeartRateReciver/main.py:81-89 | a POST with heart rate `"abc"` is stored as it is, and the GET after it is answered 200 with an empty body |
| `Receiver.Serve` | HeartRateReciver/main.py:77-166 | `do_GET` and `do_POST`, run on the manager object, give the response and new store that `Handle` gives |
| `Permissions.CurrentHeartRatePermissions` | HeartRateStreamer/app/src/main/java/com/xuan25/heartratestreamer/HeartRatePermissionManager.kt:20-37 | the list is `[READ_HEART_RATE, READ_HEALTH_DATA_IN_BACKGROUND, ACTIVITY_RECOGNITION]` when SDK >= BAKLAVA and `[BODY_SENSORS, BODY_SENSORS_BACKGROUND, ACTIVITY_RECOGNITION]` otherwise: three distinct permissions, the health pair iff SDK >= BAKLAVA, the body-sensor pair iff not |
| `Permissions.Missing` | HeartRateStreamer/app/src/main/java/com/xuan25/heartratestreamer/HeartRatePermissionManager.kt:45-48 | the result holds exactly the required permissions that are not granted, each as often as it is required, in required order, and is empty iff all are granted |
| `Permissions.PermissionManager.constructor` | HeartRateStreamer/app/src/main/java/com/xuan25/heartratestreamer/HeartRatePermissionManager.kt:9-18 | a new manager has an empty callback slot and has emitted nothing |
| `Permissions.PermissionManager.EnsurePermissionsWith` | HeartRateStreamer/app/src/main/java/com/xuan25/heartratestreamer/HeartRatePermissionManager.kt:39-42 | stores the callback, then runs the check |
| `Permissions.PermissionManager.EnsurePermissions` | HeartRateStreamer/app/src/main/java/com/xuan25/heartratestreamer/HeartRatePermissionManager.kt:44-59 | the check on the object gives the state `EnsureStep` gives |
| `Permissions.PermissionManager.HandleRequestPermissionsResult` | HeartRateStreamer/app/src/main/java/com/xuan25/heartratestreamer/HeartRatePermissionManager.kt:61-80 | the dialog result on the object gives the state `HandleResultStep` gives |
| `Permissions.RequestsExactlyMissing` | HeartRateStreamer/app/src/main/java/com/xuan25/heartratestreamer/HeartRatePermissionManager.kt:50-52 | with a permission missing, exactly the missing list is requested with code 100, `RequestingPermissions` is emitted, and the callback is kept and not run |
| `Permissions.GrantedRunsCallbackOnce` | HeartRateStreamer/app/src/main/java/com/xuan25/heartratestreamer/HeartRatePermissionManager.kt:53-58 | with nothing missing, `PermissionsGranted` is emitted, the slot is emptied, and the stored callback runs once; a second check runs nothing |
| `Permissions.OtherRequestCodeIsIgnored` | HeartRateStreamer/app/src/main/java/com/xuan25/heartratestreamer/HeartRatePermissionManager.kt:66 | a result whose request code is not 100 changes nothing and emits nothing |
| `Permissions.DenialDropsCallback` | HeartRateStreamer/app/src/main/java/com/xuan25/heartratestreamer/HeartRatePermissionManager.kt:69-74 | a result with no GRANTED entry, an empty one included, emits `PermissionDenied` and drops the callback, so the next check does not run it |
| `Permissions.UnregisteredCallbackNeverRuns` | HeartRateStreamer/app/src/main/java/com/xuan25/heartratestreamer/HeartRatePermissionManager.kt:39-80 | a callback that has not run, is not stored and is not registered again never runs, over any sequence of registrations, re-checks and results |
| `Permissions.DeniedCallbackNeverRuns` | HeartRateStreamer/app/src/main/java/com/xuan25/heartratestreamer/HeartRatePermissionManager.kt:69-74 | the callback dropped by a denial never runs afterwards unless it is registered again |
| `Permissions.AnyGrantRechecks` | HeartRateStreamer/app/src/main/java/com/xuan25/heartratestreamer/HeartRatePermissionManager.kt:79 | a result with some GRANTED entry has the same effect as a fresh `ensurePermissions()` |
| `Permissions.RegisterOverwrites` | HeartRateStreamer/app/src/main/java/com/xuan25/heartratestreamer/HeartRatePermissionManager.kt:39-42 | registering overwrites the slot: the callback stored before is not run, and the new one either runs now or stays stored |
| `Permissions.RunKeepsOnceOnly` | HeartRateStreamer/app/src/main/java/com/xuan25/heartratestreamer/HeartRatePermissionManager.kt:39-80 | if every registration is a new callback, then over any sequence of registrations, re-checks and results no callback runs twice, and the stored one has not run yet |
| `Permissions.FreshManagerRunsEachCallbackOnce` | HeartRateStreamer/app/src/main/java/com/xuan25/heartratestreamer/HeartRatePermissionManager.kt:39-80 | from a new manager, distinct registrations each run at most once |
| `Screen.HeartRateScreen` | HeartRateStreamer/app/src/main/java/com/xuan25/heartratestreamer/presentation/MainActivity.kt:292-307 | start and stop are never both enabled; stop is enabled iff the status is `Starting`, `WaitingForData`, `Streaming` or `Stopping`; start is disabled while requesting permissions or checking capabilities, and enabled in the seven other statuses; the endpoint field is editable exactly when start is enabled (line 434) |
| `Screen.StatusText` | HeartRateStreamer/app/src/main/java/com/xuan25/heartratestreamer/presentation/MainActivity.kt:247-262 | each pipeline status's label reads back to that status, so the 13 labels identify their statuses |
| `Screen.ConnectionText` | HeartRateStreamer/app/src/main/java/com/xuan25/heartratestreamer/presentation/MainActivity.kt:284-289 | each connection status's label reads back to that status |
| `Screen.StatusTextInjective` | HeartRateStreamer/app/src/main/java/com/xuan25/heartratestreamer/presentation/MainActivity.kt:247-262 | distinct `HeartRateStatus` values get distinct labels |
| `Screen.ConnectionTextInjective` | HeartRateStreamer/app/src/main/java/com/xuan25/heartratestreamer/presentation/MainActivity.kt:284-289 | distinct `ConnectionStatus` values get distinct labels |
| `Screen.MainActivityState.constructor` | HeartRateStreamer/app/src/main/java/com/xuan25/heartratestreamer/presentation/MainActivity.kt:87-90 | no heart rate shown, status `Init`, connection `Idle`, empty endpoint |
| `Screen.MainActivityState.OnHeartRate` | HeartRateStreamer/app/src/main/java/com/xuan25/heartratestreamer/presentation/MainActivity.kt:102-106 | shows the new heart rate and changes nothing else |
| `Screen.MainActivityState.OnServiceStatus` | HeartRateStreamer/app/src/main/java/com/xuan25/heartratestreamer/presentation/MainActivity.kt:107-114 | shows the new status; the heart rate is cleared exactly when the new status is `Stopped` and kept otherwise |
| `Screen.MainActivityState.OnPermissionStatus` | HeartRateStreamer/app/src/main/java/com/xuan25/heartratestreamer/presentation/MainActivity.kt:179-181 | the permission manager's status replaces the shown status |
| `Screen.MainActivityState.OnConnectionStatus` | HeartRateStreamer/app/src/main/java/com/xuan25/heartratestreamer/presentation/MainActivity.kt:184-189 | the sender's status replaces the shown connection status |
| `Screen.MainActivityState.OnStartGranted` | HeartRateStreamer/app/src/main/java/com/xuan25/heartratestreamer/presentation/MainActivity.kt:209-213 | the start click's callback sets the status to `PermissionsGranted` |
| `Screen.MainActivityState.OnStopClicked` | HeartRateStreamer/app/src/main/java/com/xuan25/heartratestreamer/presentation/MainActivity.kt:216-219 | the shown connection status becomes `Idle`, labelled "Idle" |
| `Screen.MainActivityState.OnEndpointChanged` | HeartRateStreamer/app/src/main/java/com/xuan25/heartratestreamer/presentation/MainActivity.kt:198-202 | the shown endpoint and the sender's endpoint both become the new URL; nothing else in the sender changes |

## Left out

- HTTP I/O in the sender is left out: `HttpURLConnection` setup, the 5000 ms timeouts, writing the body bytes and `disconnect`. Its effect is the `Outcome` given to `Complete`.
- Rendering the JSON body as text is left out, because it needs Kotlin's `Double` formatting. The body is the record `Body(heartRate, timestamp)`.
- Concurrency is left out: the coroutine scope, `@Volatile`, and races between jobs that overlap. Jobs finish one at a time, in whatever order the calls to `Complete` give.
- A job cancelled before it starts never runs its body and emits nothing. The model shows this as a job that is never completed. Cancellation is cooperative, so a cancelled job may still finish with a response or an exception. For that reason `Complete` accepts any outcome for any unfinished job.
- `System.currentTimeMillis()` is replaced by the `now` parameter. `Long` arithmetic is unbounded here, and `now - lastSentAt` cannot overflow for real clock readings.
- The listener is reduced to whether one is set. Which lambda receives a status is not tracked.
- The receiver's socket server, `getaddrinfo`, logging and the OSC and CSV side effects of `set_heart_rate` are left out. These are I/O or optional imports.
- The receiver's `json.loads`, the `Content-Length` read and their exceptions are left out. The payload is an already-parsed JSON object. A body that is not an object, or is not JSON at all, is not modelled.
- Methods other than GET and POST are left out, because the standard library's handler answers them.
- The `:.0f` formatting of the heart rate in the GET and metrics bodies is left out, as float output. When the stored value is a float, a bool, or an int of magnitude below 2^1024 - 2^970 (so that it converts to a double), the response body carries that value. For any other JSON value, an int too large for a double included, the formatting raises after the 200 headers are sent, and the model answers 200 with an empty body. JSON's `NaN` and `Infinity` are not modelled, because `real` has no such values.
- Android calls in the permission manager are left out: `checkSelfPermission` becomes the `granted` set, and the `requestPermissions` call is recorded as a `Request`. The `permissions` argument of the dialog result is not read by the source either.
- The UI toolkit is left out: Compose layout, icons, colours and theming, and the `heartRate.toInt()` display, which is a float conversion.
- Platform I/O in `MainActivity` is left out: SharedPreferences, binding to the service, starting and stopping it, and the notification-permission request.
- The sender's `Log.d`, `Log.w` and `Log.e` calls (`HeartRateSender.kt:78`, `:81`, `:85`, `:89`) are left out: they are logging output with no effect on the state or the statuses.
- `MainActivity` runs its listener bodies later on the UI thread through `runOnUiThread` (`MainActivity.kt:103`, `:108`, `:186`). The model applies each listener call at once, so the interleaving of deferred updates with other UI events is not captured.
- Sensor acquisition (`HeartRateMeasuring.kt`) and the foreground service (`HeartRateService.kt`) are not part of this model. They are callers that echo vendor-SDK results.

=== FILE: permissions.dfy ===
/**
  The runtime-permission flow of HeartRatePermissionManager.

  The platform's grant check is the set `granted` of permissions held at the
  moment of the check, the SDK level is a constant of the manager, a
  callback is an identifier, and the `onStatus` callback and the calls to
  `requestPermissions` and to stored callbacks are recorded in logs.
*/
module Permissions {
  import opened Wrappers
  import opened HeartRateStatuses

  datatype Permission =
    | ReadHeartRate               // HealthPermissions.READ_HEART_RATE
    | ReadHealthDataInBackground  // HealthPermissions.READ_HEALTH_DATA_IN_BACKGROUND
    | BodySensors                 // Manifest.permission.BODY_SENSORS
    | BodySensorsBackground       // Manifest.permission.BODY_SENSORS_BACKGROUND
    | ActivityRecognition         // Manifest.permission.ACTIVITY_RECOGNITION

  /** Build.VERSION_CODES.BAKLAVA (Android 16). */
  const Baklava: int := 36

  /** REQUEST_CODE of the permission dialog. */
  const RequestCode: int := 100

  /** PackageManager.PERMISSION_GRANTED. */
  const PermissionGranted: int := 0

  /** Identifies one `onAllGranted` lambda handed to ensurePermissions. */
  type CallbackId = nat

  predicate NoDuplicates<T(==)>(xs: seq<T>) {
    forall i, j :: 0 <= i < j < |xs| ==> xs[i] != xs[j]
  }

  /** `a` is `b` with some elements left out, the rest in the same order. */
  predicate IsSubsequence<T(==)>(a: seq<T>, b: seq<T>)
    decreases |b|
  {
    if a == [] then true
    else if b == [] then false
    else if a[0] == b[0] then IsSubsequence(a[1..], b[1..])
    else IsSubsequence(a, b[1..])
  }

  /** The permissions the heart-rate stream needs on a device at SDK level `sdk`. */
  function CurrentHeartRatePermissions(sdk: int): (r: seq<Permission>)
    ensures |r| == 3 && NoDuplicates(r)
    ensures r[2] == ActivityRecognition
    ensures sdk >= Baklava ==> r == [ReadHeartRate, ReadHealthDataInBackground, ActivityRecognition]
    ensures sdk < Baklava ==> r == [BodySensors, BodySensorsBackground, ActivityRecognition]
    ensures ReadHeartRate in r <==> sdk >= Baklava
    ensures ReadHealthDataInBackground in r <==> sdk >= Baklava
    ensures BodySensors in r <==> sdk < Baklava
    ensures BodySensorsBackground in r <==> sdk < Baklava
  {
    var health := if sdk >= Baklava then [ReadHeartRate, ReadHealthDataInBackground]
                  else [BodySensors, BodySensorsBackground];
    health + [ActivityRecognition]
  }

  /** `required.filter { not granted }`: repeated entries are kept as often as they occur. */
  function Missing(required: seq<Permission>, granted: set<Permission>): (r: seq<Permission>)
    ensures forall p :: p in r <==> p in required && p !in granted
    ensures forall p :: multiset(r)[p] == if p in granted then 0 else multiset(required)[p]
    ensures IsSubsequence(r, required)
    ensures |r| <= |required|
    ensures r == [] <==> forall p :: p in required ==> p in granted
  {
    if required == [] then []
    else
      assert required == [required[0]] + required[1..];
      if required[0] in granted then Missing(required[1..], granted)
      else [required[0]] + Missing(required[1..], granted)
  }

  /** `grantResults.any { it == PERMISSION_GRANTED }`. */
  predicate AnyGranted(grantResults: seq<int>) {
    exists i :: 0 <= i < |grantResults| && grantResults[i] == PermissionGranted
  }

  /** One call of `activity.requestPermissions`. */
  datatype Request = Request(permissions: seq<Permission>, code: int)

  /**
    The manager's callback slot, with everything it has told the outside
    world: statuses sent to `onStatus`, permission dialogs requested and
    stored callbacks invoked, each in order.
  */
  datatype PermState = PermState(
    slot: Option<CallbackId>,
    statuses: seq<HeartRateStatus>,
    requests: seq<Request>,
    invoked: seq<CallbackId>)

  const InitialPermState: PermState := PermState(None, [], [], [])

  /** `ensurePermissions()` while `granted` is what the platform reports. */
  function EnsureStep(s: PermState, sdk: int, granted: set<Permission>): PermState {
    var missing := Missing(CurrentHeartRatePermissions(sdk), granted);
    if |missing| > 0 then
      s.(requests := s.requests + [Request(missing, RequestCode)],
         statuses := s.statuses + [RequestingPermissions])
    else
      s.(statuses := s.statuses + [PermissionsGranted],
         slot := None,
         invoked := s.invoked + (if s.slot.Some? then [s.slot.value] else []))
  }

  /** `ensurePermissions(onAllGranted)`. */
  function EnsureWithStep(s: PermState, cb: CallbackId, sdk: int, granted: set<Permission>): PermState {
    EnsureStep(s.(slot := Some(cb)), sdk, granted)
  }

  /** `handleRequestPermissionsResult`; the `permissions` argument is not read. */
  function HandleResultStep(s: PermState, requestCode: int, grantResults: seq<int>, sdk: int, granted: set<Permission>): PermState {
    if requestCode != RequestCode then s
    else if !AnyGranted(grantResults) then
      s.(statuses := s.statuses + [PermissionDenied], slot := None)
    else EnsureStep(s, sdk, granted)
  }

  class PermissionManager {
    const sdk: int
    var onAllGranted: Option<CallbackId>
    var statuses: seq<HeartRateStatus>
    var requests: seq<Request>
    var invoked: seq<CallbackId>

    function State(): PermState
      reads this
    {
      PermState(onAllGranted, statuses, requests, invoked)
    }

    constructor (sdk: int)
      ensures this.sdk == sdk
      ensures State() == InitialPermState
    {
      this.sdk := sdk;
      onAllGranted := None;
      statuses := [];
      requests := [];
      invoked := [];
    }

    method EnsurePermissions(granted: set<Permission>)
      modifies this
      ensures State() == EnsureStep(old(State()), sdk, granted)
    {
      var required := CurrentHeartRatePermissions(sdk);
      var missing := Missing(required, granted);
      if |missing| > 0 {
        requests := requests + [Request(missing, RequestCode)];
        statuses := statuses + [RequestingPermissions];
      } else {
        statuses := statuses + [PermissionsGranted];
        var callback := onAllGranted;
        onAllGranted := None;
        if callback.Some? {
          invoked := invoked + [callback.value];
        }
      }
    }

    method EnsurePermissionsWith(cb: CallbackId, granted: set<Permission>)
      modifies this
      ensures State() == EnsureWithStep(old(State()), cb, sdk, granted)
    {
      onAllGranted := Some(cb);
      EnsurePermissions(granted);
    }

    method HandleRequestPermissionsResult(requestCode: int, permissions: seq<Permission>, grantResults: seq<int>, granted: set<Permission>)
      modifies this
      ensures State() == HandleResultStep(old(State()), requestCode, grantResults, sdk, granted)
    {
      if requestCode != RequestCode {
        return;
      }
      var anyGranted := AnyGranted(grantResults);
      if !anyGranted {
        statuses := statuses + [PermissionDenied];
        onAllGranted := None;
        return;
      }
      EnsurePermissions(granted);
    }
  }

  // ---------------------------------------------------------------------------
  // Properties of one step

  /** With something missing: exactly the missing permissions are requested with code 100, and the callback is kept. */
  lemma RequestsExactlyMissing(s: PermState, sdk: int, granted: set<Permission>)
    requires exists p :: p in CurrentHeartRatePermissions(sdk) && p !in granted
    ensures var r := EnsureStep(s, sdk, granted);
      && r.requests == s.requests + [Request(Missing(CurrentHeartRatePermissions(sdk), granted), RequestCode)]
      && r.statuses == s.statuses + [RequestingPermissions]
      && r.slot == s.slot
      && r.invoked == s.invoked
  {
  }

  /** With nothing missing: PermissionsGranted, the slot is emptied and its callback, if any, runs once. */
  lemma GrantedRunsCallbackOnce(s: PermState, sdk: int, granted: set<Permission>)
    requires forall p :: p in CurrentHeartRatePermissions(sdk) ==> p in granted
    ensures var r := EnsureStep(s, sdk, granted);
      && r.statuses == s.statuses + [PermissionsGranted]
      && r.slot == None
      && r.requests == s.requests
      && r.invoked == s.invoked + (if s.slot.Some? then [s.slot.value] else [])
      && EnsureStep(r, sdk, granted).invoked == r.invoked
  {
  }

  /** A result for another request code changes nothing and emits nothing. */
  lemma OtherRequestCodeIsIgnored(s: PermState, requestCode: int, grantResults: seq<int>, sdk: int, granted: set<Permission>)
    requires requestCode != RequestCode
    ensures HandleResultStep(s, requestCode, grantResults, sdk, granted) == s
  {
  }

  /**
    A result with no GRANTED entry (an empty one included) emits
    PermissionDenied and drops the callback, so the next check does not run
    it; DeniedCallbackNeverRuns extends this to every later step.
  */
  lemma DenialDropsCallback(s: PermState, grantResults: seq<int>, sdk: int, granted: set<Permission>, granted': set<Permission>)
    requires forall i :: 0 <= i < |grantResults| ==> grantResults[i] != PermissionGranted
    ensures var r := HandleResultStep(s, RequestCode, grantResults, sdk, granted);
      && r.statuses == s.statuses + [PermissionDenied]
      && r.slot == None
      && r.invoked == s.invoked
      && r.requests == s.requests
      && EnsureStep(r, sdk, granted').invoked == s.invoked
  {
  }

  /** A result with at least one GRANTED entry does exactly what a fresh ensurePermissions() does. */
  lemma AnyGrantRechecks(s: PermState, grantResults: seq<int>, sdk: int, granted: set<Permission>, i: nat)
    requires i < |grantResults| && grantResults[i] == PermissionGranted
    ensures HandleResultStep(s, RequestCode, grantResults, sdk, granted) == EnsureStep(s, sdk, granted)
  {
  }

  /**
    `ensurePermissions(cb)` overwrites the stored callback: the one stored
    before is never run by it, and `cb` runs now or stays stored.
  */
  lemma RegisterOverwrites(s: PermState, cb: CallbackId, sdk: int, granted: set<Permission>)
    ensures var r := EnsureWithStep(s, cb, sdk, granted);
      (r.invoked == s.invoked + [cb] && r.slot == None) || (r.invoked == s.invoked && r.slot == Some(cb))
  {
  }

  // ---------------------------------------------------------------------------
  // The callback runs at most once per registration, over any run

  /** What can happen to the manager: a start click, a re-check, a dialog result. */
  datatype PermEvent =
    | Register(cb: CallbackId, granted: set<Permission>)
    | Recheck(granted: set<Permission>)
    | Result(requestCode: int, grantResults: seq<int>, granted: set<Permission>)

  function PermStep(s: PermState, sdk: int, e: PermEvent): PermState {
    match e
    case Register(cb, granted) => EnsureWithStep(s, cb, sdk, granted)
    case Recheck(granted) => EnsureStep(s, sdk, granted)
    case Result(code, results, granted) => HandleResultStep(s, code, results, sdk, granted)
  }

  function RunPerm(s: PermState, sdk: int, evs: seq<PermEvent>): PermState
    decreases |evs|
  {
    if evs == [] then s else RunPerm(PermStep(s, sdk, evs[0]), sdk, evs[1..])
  }

  /** No callback has run twice, and the stored one has not run yet. */
  ghost predicate OnceOnly(s: PermState) {
    && NoDuplicates(s.invoked)
    && (s.slot.Some? ==> s.slot.value !in s.invoked)
  }

  /** Every registration in `evs` hands in a new lambda: one not run, not stored, not registered before. */
  ghost predicate FreshRegistrations(s: PermState, evs: seq<PermEvent>) {
    forall i :: 0 <= i < |evs| && evs[i].Register? ==>
      && evs[i].cb !in s.invoked
      && s.slot != Some(evs[i].cb)
      && forall j :: 0 <= j < i && evs[j].Register? ==> evs[j].cb != evs[i].cb
  }

  /** A step runs at most the stored callback or the one it registers, and stores nothing else. */
  lemma PermStepFrame(s: PermState, sdk: int, e: PermEvent)
    ensures var r := PermStep(s, sdk, e);
      && (r.slot == None || r.slot == s.slot || (e.Register? && r.slot == Some(e.cb)))
      && (r.invoked == s.invoked || (s.slot.Some? && r.invoked == s.invoked + [s.slot.value])
          || (e.Register? && r.invoked == s.invoked + [e.cb]))
  {
  }

  lemma PermStepKeepsOnceOnly(s: PermState, sdk: int, e: PermEvent)
    requires OnceOnly(s)
    requires e.Register? ==> e.cb !in s.invoked
    ensures OnceOnly(PermStep(s, sdk, e))
  {
  }

  /**
    As long as each registration is a new lambda, no callback ever runs
    twice, whatever the order of clicks, re-checks and dialog results.
  */
  lemma {:induction false} RunKeepsOnceOnly(s: PermState, sdk: int, evs: seq<PermEvent>)
    requires OnceOnly(s)
    requires FreshRegistrations(s, evs)
    ensures OnceOnly(RunPerm(s, sdk, evs))
    decreases |evs|
  {
    if evs != [] {
      var e := evs[0];
      var r := PermStep(s, sdk, e);
      PermStepKeepsOnceOnly(s, sdk, e);
      PermStepFrame(s, sdk, e);
      var rest := evs[1..];
      forall i | 0 <= i < |rest| && rest[i].Register?
        ensures rest[i].cb !in r.invoked
        ensures r.slot != Some(rest[i].cb)
        ensures forall j :: 0 <= j < i && rest[j].Register? ==> rest[j].cb != rest[i].cb
      {
        assert rest[i] == evs[i + 1];
        forall j | 0 <= j < i && rest[j].Register? ensures rest[j].cb != rest[i].cb {
          assert rest[j] == evs[j + 1];
        }
      }
      assert FreshRegistrations(r, rest);
      RunKeepsOnceOnly(r, sdk, rest);
    }
  }

  /**
    A callback that has not run, is not stored and is never registered again
    stays unrun over any sequence of clicks, re-checks and results.
  */
  lemma {:induction false} UnregisteredCallbackNeverRuns(s: PermState, sdk: int, evs: seq<PermEvent>, cb: CallbackId)
    requires cb !in s.invoked && s.slot != Some(cb)
    requires forall i :: 0 <= i < |evs| && evs[i].Register? ==> evs[i].cb != cb
    ensures cb !in RunPerm(s, sdk, evs).invoked
    decreases |evs|
  {
    if evs != [] {
      var r := PermStep(s, sdk, evs[0]);
      PermStepFrame(s, sdk, evs[0]);
      forall i | 0 <= i < |evs[1..]| && evs[1..][i].Register? ensures evs[1..][i].cb != cb {
        assert evs[1..][i] == evs[i + 1];
      }
      UnregisteredCallbackNeverRuns(r, sdk, evs[1..], cb);
    }
  }

  /**
    A denied dialog drops the stored callback for good: unless it is
    registered again, no later check or result runs it.
  */
  lemma DeniedCallbackNeverRuns(s: PermState, grantResults: seq<int>, sdk: int, granted: set<Permission>, evs: seq<PermEvent>)
    requires s.slot.Some? && s.slot.value !in s.invoked
    requires forall i :: 0 <= i < |grantResults| ==> grantResults[i] != PermissionGranted
    requires forall i :: 0 <= i < |evs| && evs[i].Register? ==> evs[i].cb != s.slot.value
    ensures s.slot.value !in RunPerm(HandleResultStep(s, RequestCode, grantResults, sdk, granted), sdk, evs).invoked
  {
    UnregisteredCallbackNeverRuns(HandleResultStep(s, RequestCode, grantResults, sdk, granted), sdk, evs, s.slot.value);
  }

  /** Starting from a fresh manager, every registered lambda runs at most once. */
  lemma FreshManagerRunsEachCallbackOnce(sdk: int, evs: seq<PermEvent>)
    requires forall i, j :: 0 <= j < i < |evs| && evs[i].Register? && evs[j].Register? ==> evs[j].cb != evs[i].cb
    ensures NoDuplicates(RunPerm(InitialPermState, sdk, evs).invoked)
  {
    RunKeepsOnceOnly(InitialPermState, sdk, evs);
  }
}

=== FILE: receiver.dfy ===
/**
  The receiving HTTP server: a two-field heart-rate store and a request
  handler that routes on the exact path and, for a POST, picks the heart
  rate and the timestamp out of an already parsed JSON object.
*/
module Receiver {
  import opened Wrappers

  /** A JSON value as `json.loads` returns it. */
  datatype Value =
    | Null
    | Bool(b: bool)
    | Int(i: int)
    | Float(f: real)
    | Str(s: string)
    | Array(items: seq<Value>)
    | Object(fields: map<string, Value>)

  /** A parsed JSON object: the POST payload. */
  type Payload = map<string, Value>

  /** Keys tried for the heart rate, in this order. */
  const HeartRateKeys: seq<string> := ["heartRate", "heart_rate", "heartrate", "hr", "bpm"]

  /** Keys tried for the timestamp, in this order. */
  const TimestampKeys: seq<string> := ["timestamp", "time", "ts"]

  const HeartRatePath: string := "/heart-rate-endpoint"
  const ShortPath: string := "/hr"
  const MetricsPath: string := "/metrics"

  /** The store's two fields. */
  datatype Store = Store(heartRate: Value, timestamp: Value)

  /** A fresh HeatRateManager holds 0.0 and 0. */
  function FreshStore(): (s: Store)
    ensures s.heartRate == Float(0.0) && s.timestamp == Int(0)
  {
    Store(Float(0.0), Int(0))
  }

  /** The manager keeps the last heart rate and timestamp it was given. */
  class HeatRateManager {
    var heartRate: Value
    var timestamp: Value

    function State(): Store
      reads this
    {
      Store(heartRate, timestamp)
    }

    constructor ()
      ensures State() == FreshStore()
    {
      heartRate := Float(0.0);
      timestamp := Int(0);
    }

    method SetHeartRate(h: Value, t: Value)
      modifies this
      ensures heartRate == h && timestamp == t
    {
      heartRate := h;
      timestamp := t;
    }

    method GetHeartRate() returns (h: Value)
      ensures h == heartRate
    {
      h := heartRate;
    }

    method GetTimestamp() returns (t: Value)
      ensures t == timestamp
    {
      t := timestamp;
    }
  }

  /**
    The value under the first key of `keys` that the payload holds, or None
    when it holds none of them: the `for ... break / else` search.
  */
  function FirstPresent(keys: seq<string>, payload: Payload): (r: Option<Value>)
    ensures r == None <==> forall k :: k in keys ==> k !in payload
    ensures r.Some? ==> exists i :: (0 <= i < |keys| && keys[i] in payload && r.value == payload[keys[i]] &&
                                     forall j :: 0 <= j < i ==> keys[j] !in payload)
  {
    if keys == [] then None
    else if keys[0] in payload then Some(payload[keys[0]])
    else FirstPresent(keys[1..], payload)
  }

  /** The search as the handler runs it: a loop that stops at the first key present. */
  method LookupFirst(keys: seq<string>, payload: Payload) returns (found: Option<Value>)
    ensures found == FirstPresent(keys, payload)
  {
    var n := 0;
    while n < |keys|
      invariant 0 <= n <= |keys|
      invariant forall j :: 0 <= j < n ==> keys[j] !in payload
    {
      if keys[n] in payload {
        found := Some(payload[keys[n]]);
        FirstPresentSkips(keys, payload, n);
        return;
      }
      n := n + 1;
    }
    found := None;
  }

  /** FirstPresent passes over absent keys and stops at the first present one. */
  lemma FirstPresentSkips(keys: seq<string>, payload: Payload, n: nat)
    requires n < |keys| && keys[n] in payload
    requires forall j :: 0 <= j < n ==> keys[j] !in payload
    ensures FirstPresent(keys, payload) == Some(payload[keys[n]])
  {
  }

  /** Both keys found, or the store is left as it was. */
  function Extract(payload: Payload): (r: Option<Store>)
    ensures r.Some? <==> FirstPresent(HeartRateKeys, payload).Some? && FirstPresent(TimestampKeys, payload).Some?
    ensures r.Some? ==> (r.value.heartRate == FirstPresent(HeartRateKeys, payload).value &&
                         r.value.timestamp == FirstPresent(TimestampKeys, payload).value)
  {
    match FirstPresent(HeartRateKeys, payload)
    case None => None
    case Some(h) =>
      match FirstPresent(TimestampKeys, payload)
      case None => None
      case Some(t) => Some(Store(h, t))
  }

  datatype Method = Get | Post

  /**
    2^1024 - 2^970: the least integer that rounds past the largest double
    (2^1024 - 2^971) when Python converts an int to float, so an int of this
    magnitude or more makes the conversion raise OverflowError.
  */
  const DoubleOverflowBound: int := 0xfffffffffffffc00000000000000000000000000000000000000000000000000000000000000000000000000000000000000000000000000000000000000000000000000000000000000000000000000000000000000000000000000000000000000000000000000000000000000000000000000000000000000000000000000

  /**
    `f"{v:.0f}"` succeeds only on a number (a bool is an int in Python) that
    converts to a double: a float, a bool, or an int of magnitude below
    DoubleOverflowBound. On any other value it raises after the 200 status
    line and the headers are out, so the client gets 200 and no body.
  */
  predicate Formattable(v: Value) {
    || v.Float?
    || v.Bool?
    || (v.Int? && -DoubleOverflowBound < v.i < DoubleOverflowBound)
  }

  /** What the response carries; number formatting is not modelled. */
  datatype ResponseBody =
    | Empty
    | HeartRateText(heartRate: Value)                  // text/plain, Refresh: 5
    | MetricsText(target: string, heartRate: Value)    // Prometheus gauge heart_rate_bpm

  datatype Response = Response(code: int, body: ResponseBody)

  predicate IsHeartRatePath(path: string) {
    path == HeartRatePath || path == ShortPath
  }

  /**
    One request against the store: the response and the store afterwards.
    `target` is METRIC_TARGET from the environment.
  */
  function Handle(store: Store, m: Method, path: string, payload: Payload, target: string): (r: (Response, Store))
    ensures r.0.code == 200 || r.0.code == 404
    ensures r.1 == store || (m == Post && IsHeartRatePath(path) && Extract(payload) == Some(r.1))
    ensures r.0.body != Empty ==> m == Get && r.0.code == 200 && Formattable(store.heartRate)
    ensures m == Get && path == MetricsPath ==>
      r.0.body == if Formattable(store.heartRate) then MetricsText(target, store.heartRate) else Empty
  {
    match m
    case Get =>
      if IsHeartRatePath(path) then
        (Response(200, if Formattable(store.heartRate) then HeartRateText(store.heartRate) else Empty), store)
      else if path == MetricsPath then
        (Response(200, if Formattable(store.heartRate) then MetricsText(target, store.heartRate) else Empty), store)
      else (Response(404, Empty), store)
    case Post =>
      if IsHeartRatePath(path) then
        (Response(200, Empty), match Extract(payload) case Some(s) => s case None => store)
      else (Response(404, Empty), store)
  }

  /** `do_GET` and `do_POST` acting on the process-wide manager. */
  method Serve(manager: HeatRateManager, m: Method, path: string, payload: Payload, target: string)
    returns (response: Response)
    modifies manager
    ensures (response, manager.State()) == Handle(old(manager.State()), m, path, payload, target)
  {
    if m == Get {
      if IsHeartRatePath(path) {
        var h := manager.GetHeartRate();
        if !Formattable(h) {
          return Response(200, Empty);
        }
        return Response(200, HeartRateText(h));
      }
      if path == MetricsPath {
        var h := manager.GetHeartRate();
        if !Formattable(h) {
          return Response(200, Empty);
        }
        return Response(200, MetricsText(target, h));
      }
      return Response(404, Empty);
    }
    if IsHeartRatePath(path) {
      response := Response(200, Empty);
      var heartRate := LookupFirst(HeartRateKeys, payload);
      if heartRate == None {
        return;
      }
      var timestamp := LookupFirst(TimestampKeys, payload);
      if timestamp == None {
        return;
      }
      manager.SetHeartRate(heartRate.value, timestamp.value);
      return;
    }
    response := Response(404, Empty);
  }

  // ---------------------------------------------------------------------------
  // Properties

  /** After a store, the getters give back what was stored. */
  method SetThenGet(manager: HeatRateManager, h: Value, t: Value) returns (h': Value, t': Value)
    modifies manager
    ensures h' == h && t' == t
  {
    manager.SetHeartRate(h, t);
    h' := manager.GetHeartRate();
    t' := manager.GetTimestamp();
  }

  /** The heart rate comes from the first of heartRate, heart_rate, heartrate, hr, bpm that is present. */
  lemma HeartRateKeyPriority(payload: Payload, v: Value, w: Value)
    ensures "heartRate" in payload ==> FirstPresent(HeartRateKeys, payload) == Some(payload["heartRate"])
    ensures FirstPresent(HeartRateKeys, payload["bpm" := v]["heartRate" := w]) == Some(w)
    ensures "heartRate" !in payload && "heart_rate" !in payload && "heartrate" !in payload && "hr" !in payload
      ==> FirstPresent(HeartRateKeys, payload) == (if "bpm" in payload then Some(payload["bpm"]) else None)
  {
  }

  /** The timestamp comes from the first of timestamp, time, ts that is present. */
  lemma TimestampKeyPriority(payload: Payload)
    ensures "timestamp" in payload ==> FirstPresent(TimestampKeys, payload) == Some(payload["timestamp"])
    ensures "timestamp" !in payload && "time" in payload ==> FirstPresent(TimestampKeys, payload) == Some(payload["time"])
    ensures "timestamp" !in payload && "time" !in payload
      ==> FirstPresent(TimestampKeys, payload) == (if "ts" in payload then Some(payload["ts"]) else None)
  {
  }

  /**
    A POST to a heart-rate path is answered 200 before the keys are looked
    up, so it is 200 even when the store is left unchanged; the store changes
    exactly when both a heart-rate key and a timestamp key are present.
  */
  lemma PostAnswers200(store: Store, path: string, payload: Payload, target: string)
    requires IsHeartRatePath(path)
    ensures Handle(store, Post, path, payload, target).0 == Response(200, Empty)
    ensures FirstPresent(HeartRateKeys, payload) == None ==> Handle(store, Post, path, payload, target).1 == store
    ensures FirstPresent(TimestampKeys, payload) == None ==> Handle(store, Post, path, payload, target).1 == store
    ensures (forall k :: k in HeartRateKeys ==> k !in payload) ==> Handle(store, Post, path, payload, target).1 == store
    ensures (forall k :: k in TimestampKeys ==> k !in payload) ==> Handle(store, Post, path, payload, target).1 == store
    ensures Extract(payload).Some? ==> Handle(store, Post, path, payload, target).1 == Extract(payload).value
  {
  }

  /**
    GET and POST accept exactly /heart-rate-endpoint and /hr, GET also
    accepts /metrics, and every other path is answered 404 without touching
    the store.
  */
  lemma Routing(store: Store, m: Method, path: string, payload: Payload, target: string)
    ensures var (resp, store') := Handle(store, m, path, payload, target);
      && (resp.code == 200 <==> IsHeartRatePath(path) || (m == Get && path == MetricsPath))
      && (resp.code != 200 ==> resp.code == 404 && resp.body == Empty && store' == store)
      && (m == Get ==> store' == store)
  {
  }

  /**
    A GET of a heart-rate path or of /metrics after an accepted POST reports
    the heart rate that was posted (the metrics gauge also names the target)
    when it is a number, and answers 200 with no body when it is not, since the
    POST stores any JSON value without checking its type.
  */
  lemma GetAfterPost(store: Store, path: string, payload: Payload, target: string, getPath: string)
    requires IsHeartRatePath(path) && IsHeartRatePath(getPath)
    requires Extract(payload).Some?
    ensures var posted := FirstPresent(HeartRateKeys, payload).value;
      var store' := Handle(store, Post, path, payload, target).1;
      && Handle(store', Get, getPath, payload, target).0
         == Response(200, if Formattable(posted) then HeartRateText(posted) else Empty)
      && Handle(store', Get, MetricsPath, payload, target).0
         == Response(200, if Formattable(posted) then MetricsText(target, posted) else Empty)
  {
  }

  /** An integer heart rate too large for a double is stored, and the GETs after it get 200 and an empty body. */
  lemma HugeIntHeartRateGivesEmptyBody(target: string)
    ensures var payload: Payload := map["hr" := Int(DoubleOverflowBound), "ts" := Int(1)];
      var store' := Handle(FreshStore(), Post, ShortPath, payload, target).1;
      && store' == Store(Int(DoubleOverflowBound), Int(1))
      && Handle(store', Get, ShortPath, map[], target).0 == Response(200, Empty)
      && Handle(store', Get, MetricsPath, map[], target).0 == Response(200, Empty)
      && Handle(Store(Int(DoubleOverflowBound - 1), Int(1)), Get, ShortPath, map[], target).0
         == Response(200, HeartRateText(Int(DoubleOverflowBound - 1)))
  {
    var payload: Payload := map["hr" := Int(DoubleOverflowBound), "ts" := Int(1)];
    assert HeartRateKeys[3] == "hr" && TimestampKeys[2] == "ts";
    FirstPresentSkips(HeartRateKeys, payload, 3);
    FirstPresentSkips(TimestampKeys, payload, 2);
  }

  /** A POST with a string heart rate is stored, and the GET after it gets 200 and an empty body. */
  lemma StringHeartRateGivesEmptyBody()
    ensures var payload: Payload := map["hr" := Str("abc"), "ts" := Int(1)];
      var store' := Handle(FreshStore(), Post, ShortPath, payload, "").1;
      && store' == Store(Str("abc"), Int(1))
      && Handle(store', Get, ShortPath, map[], "").0 == Response(200, Empty)
  {
  }
}

=== FILE: screen.dfy ===
/**
  What the watch face shows: the labels and button states HeartRateScreen
  derives from the two statuses, and the activity's UI state that the
  service, permission and sender listeners assign to.
*/
module Screen {
  import opened Wrappers
  import opened HeartRateStatuses
  import opened ConnectionStatuses
  import HeartRateSender

  /** The label `HeartRateScreen` shows for a pipeline status. */
  function StatusText(status: HeartRateStatus): (t: string)
    ensures StatusOfLabel(t) == Some(status)
  {
    match status
    case Init => "Init"
    case CheckingCapabilities => "Check"
    case SensorNotSupported => "No sensor"
    case SensorSupported => "OK"
    case RequestingPermissions => "Perm?"
    case PermissionDenied => "No perm"
    case PermissionsGranted => "Ready"
    case Starting => "Start"
    case WaitingForData => "Wait"
    case Streaming => "Live"
    case Stopping => "Stop..."
    case Stopped => "Stopped"
    case Error => "Error"
  }

  /** Reads a pipeline status back from its label, if it is one. */
  function StatusOfLabel(t: string): Option<HeartRateStatus> {
    if t == "Init" then Some(Init)
    else if t == "Check" then Some(CheckingCapabilities)
    else if t == "No sensor" then Some(SensorNotSupported)
    else if t == "OK" then Some(SensorSupported)
    else if t == "Perm?" then Some(RequestingPermissions)
    else if t == "No perm" then Some(PermissionDenied)
    else if t == "Ready" then Some(PermissionsGranted)
    else if t == "Start" then Some(Starting)
    else if t == "Wait" then Some(WaitingForData)
    else if t == "Live" then Some(Streaming)
    else if t == "Stop..." then Some(Stopping)
    else if t == "Stopped" then Some(Stopped)
    else if t == "Error" then Some(HeartRateStatus.Error)
    else None
  }

  /** The label `HeartRateScreen` shows for the connection status. */
  function ConnectionText(c: ConnectionStatus): (t: string)
    ensures ConnectionOfLabel(t) == Some(c)
  {
    match c
    case Idle => "Idle"
    case Sending => "Send"
    case Error => "Err"
    case Ok => "OK"
  }

  /** Reads a connection status back from its label, if it is one. */
  function ConnectionOfLabel(t: string): Option<ConnectionStatus> {
    if t == "Idle" then Some(Idle)
    else if t == "Send" then Some(Sending)
    else if t == "Err" then Some(ConnectionStatus.Error)
    else if t == "OK" then Some(Ok)
    else None
  }

  predicate IsMeasuringPhase(status: HeartRateStatus) {
    status.Starting? || status.WaitingForData? || status.Streaming? || status.Stopping?
  }

  predicate IsBusyPermissionsOrCheck(status: HeartRateStatus) {
    status.RequestingPermissions? || status.CheckingCapabilities?
  }

  predicate CanStart(status: HeartRateStatus) {
    !IsMeasuringPhase(status) && !IsBusyPermissionsOrCheck(status)
  }

  predicate CanStop(status: HeartRateStatus) {
    IsMeasuringPhase(status)
  }

  /** The derived values of one composition of the screen. */
  datatype View = View(
    statusText: string,
    connectionText: string,
    startEnabled: bool,
    stopEnabled: bool,
    endpointEditable: bool)

  /** HeartRateScreen's derived values for the given statuses. */
  function HeartRateScreen(status: HeartRateStatus, connection: ConnectionStatus): (v: View)
    ensures v.statusText == StatusText(status) && v.connectionText == ConnectionText(connection)
    ensures !(v.startEnabled && v.stopEnabled)
    ensures v.stopEnabled <==> status in {Starting, WaitingForData, Streaming, Stopping}
    ensures status in {RequestingPermissions, CheckingCapabilities} ==> !v.startEnabled
    ensures v.startEnabled <==> status in {Init, SensorSupported, SensorNotSupported, PermissionsGranted,
                                           Stopped, PermissionDenied, HeartRateStatus.Error}
    ensures v.endpointEditable == v.startEnabled
    ensures v.endpointEditable ==> !v.stopEnabled
  {
    View(StatusText(status), ConnectionText(connection), CanStart(status), CanStop(status), CanStart(status))
  }

  /** Distinct pipeline statuses get distinct labels. */
  lemma StatusTextInjective(a: HeartRateStatus, b: HeartRateStatus)
    requires a != b
    ensures StatusText(a) != StatusText(b)
  {
  }

  /** Distinct connection statuses get distinct labels. */
  lemma ConnectionTextInjective(a: ConnectionStatus, b: ConnectionStatus)
    requires a != b
    ensures ConnectionText(a) != ConnectionText(b)
  {
  }

  /** The activity's UI state. */
  class MainActivityState {
    var heartRate: Option<real>
    var status: HeartRateStatus
    var connection: ConnectionStatus
    var endpoint: string

    constructor ()
      ensures heartRate == None && status == Init && connection == Idle && endpoint == ""
    {
      heartRate := None;
      status := Init;
      connection := Idle;
      endpoint := "";
    }

    /** What the screen shows now. */
    function Shown(): View
      reads this
    {
      HeartRateScreen(status, connection)
    }

    /** The service's heart-rate listener. */
    method OnHeartRate(bpm: real)
      modifies this
      ensures heartRate == Some(bpm)
      ensures status == old(status) && connection == old(connection) && endpoint == old(endpoint)
    {
      heartRate := Some(bpm);
    }

    /** The service's status listener: Stopped also clears the shown heart rate. */
    method OnServiceStatus(newStatus: HeartRateStatus)
      modifies this
      ensures status == newStatus
      ensures heartRate == if newStatus == Stopped then None else old(heartRate)
      ensures connection == old(connection) && endpoint == old(endpoint)
    {
      status := newStatus;
      if status == Stopped {
        heartRate := None;
      }
    }

    /** The permission manager's `onStatus`. */
    method OnPermissionStatus(newStatus: HeartRateStatus)
      modifies this
      ensures status == newStatus
      ensures heartRate == old(heartRate) && connection == old(connection) && endpoint == old(endpoint)
    {
      status := newStatus;
    }

    /** The sender's status listener. */
    method OnConnectionStatus(c: ConnectionStatus)
      modifies this
      ensures connection == c
      ensures heartRate == old(heartRate) && status == old(status) && endpoint == old(endpoint)
    {
      connection := c;
    }

    /** The `onAllGranted` lambda of a start click; starting the service is not modelled. */
    method OnStartGranted()
      modifies this
      ensures status == PermissionsGranted
      ensures heartRate == old(heartRate) && connection == old(connection) && endpoint == old(endpoint)
    {
      status := PermissionsGranted;
    }

    /** A stop click; asking the service to stop is not modelled. */
    method OnStopClicked()
      modifies this
      ensures connection == Idle
      ensures Shown().connectionText == "Idle"
      ensures heartRate == old(heartRate) && status == old(status) && endpoint == old(endpoint)
    {
      connection := Idle;
    }

    /** An edit of the endpoint field; saving it to the preferences is not modelled. */
    method OnEndpointChanged(url: string, sender: HeartRateSender.Sender)
      requires sender.Valid()
      modifies this, sender
      ensures endpoint == url && sender.endpoint == url
      ensures sender.Valid()
      ensures sender.State() == old(sender.State()).(endpoint := url)
      ensures heartRate == old(heartRate) && status == old(status) && connection == old(connection)
    {
      endpoint := url;
      sender.SetEndpoint(url);
    }
  }
}

=== FILE: sender.dfy ===
/**
  The throttled uplink: the process-wide HeartRateSender object.

  The clock reading is a parameter of Send, the listener is reduced to
  "is one set", and the network job launched by an accepted send is a
  record in `jobs` that the scheduler later finishes with Complete, handing
  in the job's outcome (a response code, a cancellation or another
  exception). Every status the listener receives is appended to `log`.
*/
module HeartRateSender {
  import opened Wrappers
  import opened ConnectionStatuses

  /** MIN_INTERVAL_MS: two accepted sends are at least this many milliseconds apart. */
  const MinIntervalMs: int := 1000

  /** The JSON body of one POST: {"heart_rate": heartRate, "timestamp": timestamp}. */
  datatype Body = Body(heartRate: real, timestamp: int)

  /** How a network job ends. */
  datatype Outcome =
    | Response(code: int)  // the server answered with this HTTP status code
    | Cancelled            // a CancellationException reached the job
    | Failed               // any other exception: bad URL, refused connection, timeout, ...

  /** A job launched on the sender's coroutine scope. */
  datatype Job = Job(body: Body, cancelled: bool, finished: bool)

  /** The four fields of the sender, plus the jobs it launched and the statuses it emitted. */
  datatype SenderState = SenderState(
    endpoint: string,
    lastSentAt: int,
    lastJob: Option<nat>,
    hasListener: bool,
    jobs: seq<Job>,
    log: seq<ConnectionStatus>)

  /** `lastJob` is always the most recently launched job, and it is null only before the first one. */
  ghost predicate ValidState(s: SenderState) {
    && (s.lastJob == None <==> |s.jobs| == 0)
    && (s.lastJob.Some? ==> s.lastJob.value == |s.jobs| - 1)
  }

  /** The object as it is when the process starts. */
  function InitialState(): (s: SenderState)
    ensures ValidState(s)
  {
    SenderState("", 0, None, false, [], [])
  }

  /** `now - lastSentAt < MIN_INTERVAL_MS` drops the call. */
  predicate Accepts(lastSentAt: int, now: int) {
    !(now - lastSentAt < MinIntervalMs)
  }

  /** `code in 200..299`: both ends included. */
  predicate IsSuccessCode(code: int) {
    200 <= code <= 299
  }

  /** The status a finished job reports. */
  function Classify(o: Outcome): (c: ConnectionStatus)
    ensures c != Sending
    ensures c == Ok <==> o.Response? && IsSuccessCode(o.code)
    ensures c == Idle <==> o.Cancelled?
    ensures c == Error <==> o.Failed? || (o.Response? && !IsSuccessCode(o.code))
  {
    match o
    case Response(code) => if IsSuccessCode(code) then Ok else Error
    case Cancelled => Idle
    case Failed => Error
  }

  /** `statusListener?.invoke(c)`: the status reaches the log only when a listener is set. */
  function Notify(s: SenderState, c: ConnectionStatus): seq<ConnectionStatus> {
    if s.hasListener then s.log + [c] else s.log
  }

  function SetEndpointStep(s: SenderState, url: string): SenderState {
    s.(endpoint := url)
  }

  function SetListenerStep(s: SenderState): SenderState {
    s.(hasListener := true)
  }

  /** `send(bpm)` at clock reading `now`. */
  function SendStep(s: SenderState, now: int, bpm: real): SenderState {
    if !Accepts(s.lastSentAt, now) then s
    else
      s.(lastSentAt := now,
         log := Notify(s, Sending),
         jobs := s.jobs + [Job(Body(bpm, now), false, false)],
         lastJob := Some(|s.jobs|))
  }

  /** The job `id` runs to its end with `outcome`; it reads the listener slot only now. */
  function CompleteStep(s: SenderState, id: nat, outcome: Outcome): SenderState
    requires id < |s.jobs| && !s.jobs[id].finished
  {
    s.(jobs := s.jobs[id := s.jobs[id].(finished := true)],
       log := Notify(s, Classify(outcome)))
  }

  /** `lastJob?.cancel()`: a request to cancel; on a job that already finished it does nothing. */
  function CancelJob(j: Job): Job {
    if j.finished then j else j.(cancelled := true)
  }

  /** `reset()`. `lastJob` keeps pointing at the (now cancelled) job. */
  function ResetStep(s: SenderState): SenderState
    requires ValidState(s)
  {
    s.(jobs := if s.lastJob.Some? then s.jobs[s.lastJob.value := CancelJob(s.jobs[s.lastJob.value])] else s.jobs,
       lastSentAt := 0,
       log := Notify(s, Idle))
  }

  class Sender {
    var endpoint: string
    var lastSentAt: int
    var lastJob: Option<nat>
    var hasListener: bool
    var jobs: seq<Job>
    var log: seq<ConnectionStatus>

    function State(): SenderState
      reads this
    {
      SenderState(endpoint, lastSentAt, lastJob, hasListener, jobs, log)
    }

    ghost predicate Valid()
      reads this
    {
      ValidState(State())
    }

    constructor ()
      ensures Valid()
      ensures State() == InitialState()
    {
      endpoint := "";
      lastSentAt := 0;
      lastJob := None;
      hasListener := false;
      jobs := [];
      log := [];
    }

    method SetEndpoint(url: string)
      requires Valid()
      modifies this
      ensures Valid()
      ensures State() == SetEndpointStep(old(State()), url)
      ensures endpoint == url
      ensures lastSentAt == old(lastSentAt) && lastJob == old(lastJob) && jobs == old(jobs) && log == old(log)
    {
      endpoint := url;
    }

    method SetStatusListener()
      requires Valid()
      modifies this
      ensures Valid()
      ensures State() == SetListenerStep(old(State()))
      ensures hasListener
      ensures lastSentAt == old(lastSentAt) && lastJob == old(lastJob) && jobs == old(jobs) && log == old(log)
    {
      hasListener := true;
    }

    /** Returns whether the throttle let the call through; the source's `send` returns nothing. */
    method Send(now: int, bpm: real) returns (accepted: bool)
      requires Valid()
      modifies this
      ensures Valid()
      ensures State() == SendStep(old(State()), now, bpm)
      ensures accepted <==> now - old(lastSentAt) >= MinIntervalMs
      ensures !accepted ==> State() == old(State())
      ensures accepted ==> lastSentAt == now && jobs[|jobs| - 1].body == Body(bpm, now)
    {
      if now - lastSentAt < MinIntervalMs {
        return false;
      }
      lastSentAt := now;
      var body := Body(bpm, now);
      if hasListener {
        log := log + [Sending];
      }
      jobs := jobs + [Job(body, false, false)];
      lastJob := Some(|jobs| - 1);
      accepted := true;
    }

    /**
      The body of the job `id`, run to its end with `outcome`. Returns the URL
      it posted to, which is the endpoint at the time the job runs, and the
      status it classified the outcome as.
    */
    method Complete(id: nat, outcome: Outcome) returns (url: string, status: ConnectionStatus)
      requires Valid()
      requires id < |jobs| && !jobs[id].finished
      modifies this
      ensures Valid()
      ensures State() == CompleteStep(old(State()), id, outcome)
      ensures url == endpoint && status == Classify(outcome)
    {
      url := endpoint;
      match outcome {
        case Response(code) =>
          status := if IsSuccessCode(code) then Ok else Error;
        case Cancelled =>
          status := Idle;
        case Failed =>
          status := Error;
      }
      if hasListener {
        log := log + [status];
      }
      jobs := jobs[id := jobs[id].(finished := true)];
    }

    method Reset()
      requires Valid()
      modifies this
      ensures Valid()
      ensures State() == ResetStep(old(State()))
      ensures lastSentAt == 0 && lastJob == old(lastJob) && endpoint == old(endpoint)
    {
      if lastJob.Some? {
        var j := lastJob.value;
        jobs := jobs[j := CancelJob(jobs[j])];
      }
      lastSentAt := 0;
      if hasListener {
        log := log + [Idle];
      }
    }
  }

  // ---------------------------------------------------------------------------
  // Properties of the step functions

  /** A throttled send changes no field and emits nothing. */
  lemma ThrottledSendIsNoop(s: SenderState, now: int, bpm: real)
    requires now - s.lastSentAt < MinIntervalMs
    ensures SendStep(s, now, bpm) == s
  {
  }

  /**
    An accepted send stamps `lastSentAt` with the same `now` that the body
    carries, emits Sending (when a listener is set) and launches one new job
    that becomes `lastJob`.
  */
  lemma AcceptedSendStamps(s: SenderState, now: int, bpm: real)
    requires ValidState(s)
    requires now - s.lastSentAt >= MinIntervalMs
    ensures var r := SendStep(s, now, bpm);
      && ValidState(r)
      && r.lastSentAt == now
      && |r.jobs| == |s.jobs| + 1
      && r.jobs[|s.jobs|].body == Body(bpm, now)
      && r.jobs[|s.jobs|].body.timestamp == r.lastSentAt
      && r.lastJob == Some(|s.jobs|)
      && r.log == (if s.hasListener then s.log + [Sending] else s.log)
      && r.endpoint == s.endpoint
  {
  }

  /** Once a send at `now` is accepted, every send before `now + MIN_INTERVAL_MS` is dropped. */
  lemma AcceptedSendOpensWindow(s: SenderState, now: int, bpm: real, later: int, bpm2: real)
    requires now - s.lastSentAt >= MinIntervalMs
    requires later < now + MinIntervalMs
    ensures SendStep(SendStep(s, now, bpm), later, bpm2) == SendStep(s, now, bpm)
  {
  }

  /** An accepted send replaces `lastJob` but neither cancels nor alters any earlier job. */
  lemma AcceptedSendKeepsEarlierJobs(s: SenderState, now: int, bpm: real)
    requires now - s.lastSentAt >= MinIntervalMs
    ensures var r := SendStep(s, now, bpm);
      && |s.jobs| < |r.jobs|
      && r.jobs[..|s.jobs|] == s.jobs
      && (forall i :: 0 <= i < |s.jobs| ==> r.jobs[i].cancelled == s.jobs[i].cancelled)
  {
  }

  /**
    An accepted send followed by the run of its job emits exactly
    [Sending, x] with x one of Ok, Error or Idle, or nothing at all when no
    listener is set.
  */
  lemma SendThenCompleteEmits(s: SenderState, now: int, bpm: real, outcome: Outcome)
    requires ValidState(s)
    requires now - s.lastSentAt >= MinIntervalMs
    ensures var r := SendStep(s, now, bpm);
      |s.jobs| < |r.jobs| && !r.jobs[|s.jobs|].finished &&
      var t := CompleteStep(r, |s.jobs|, outcome);
      && (s.hasListener ==> t.log == s.log + [Sending, Classify(outcome)])
      && (!s.hasListener ==> t.log == s.log)
      && Classify(outcome) in {Ok, Error, Idle}
  {
  }

  /**
    Reset asks only the job held in `lastJob` to cancel, zeroes the throttle
    and emits Idle whether or not there is a job.
  */
  lemma ResetCancelsOnlyLastJob(s: SenderState)
    requires ValidState(s)
    ensures var r := ResetStep(s);
      && ValidState(r)
      && r.lastSentAt == 0
      && r.lastJob == s.lastJob
      && |r.jobs| == |s.jobs|
      && (forall i :: 0 <= i < |s.jobs| && i != |s.jobs| - 1 ==> r.jobs[i] == s.jobs[i])
      && (|s.jobs| > 0 ==> r.jobs[|s.jobs| - 1] == CancelJob(s.jobs[|s.jobs| - 1]))
      && (s.hasListener ==> r.log == s.log + [Idle])
      && (!s.hasListener ==> r.log == s.log)
  {
  }

  /** After a reset, a send is accepted as soon as the clock reads MIN_INTERVAL_MS or more. */
  lemma ResetUnblocksThrottle(s: SenderState, now: int, bpm: real)
    requires ValidState(s)
    requires now >= MinIntervalMs
    ensures ResetStep(s).lastSentAt == 0
    ensures Accepts(ResetStep(s).lastSentAt, now)
    ensures SendStep(ResetStep(s), now, bpm).lastSentAt == now
  {
  }

  /**
    `lastSentAt` starts at 0 and reset puts it back to 0 rather than to a
    "never sent" value, so a clock reading below MIN_INTERVAL_MS is still
    throttled, right after a reset and on a fresh sender alike. With
    ResetUnblocksThrottle: after a reset, a send is accepted iff `now >= 1000`.
  */
  lemma ResetDoesNotUnblockSmallClock(s: SenderState, now: int, bpm: real)
    requires ValidState(s)
    requires now < MinIntervalMs
    ensures SendStep(ResetStep(s), now, bpm) == ResetStep(s)
    ensures SendStep(InitialState(), now, bpm) == InitialState()
  {
  }

  /** `setEndpoint` and `setStatusListener` touch only their own field. */
  lemma SettersTouchOnlyTheirField(s: SenderState, url: string)
    ensures SetEndpointStep(s, url).endpoint == url
    ensures SetEndpointStep(s, url).(endpoint := s.endpoint) == s
    ensures SetListenerStep(s).hasListener
    ensures SetListenerStep(s).(hasListener := s.hasListener) == s
  {
  }

  /**
    A superseded job is neither cancelled nor silenced: after two accepted
    sends, the first job's completion is still reported, after the second
    send's Sending, whatever its outcome.
  */
  lemma SupersededJobStillReports(s: SenderState, t1: int, b1: real, t2: int, b2: real, o: Outcome)
    requires ValidState(s) && s.hasListener
    requires t1 - s.lastSentAt >= MinIntervalMs
    requires t2 - t1 >= MinIntervalMs
    ensures var s2 := SendStep(SendStep(s, t1, b1), t2, b2);
      && |s2.jobs| == |s.jobs| + 2
      && !s2.jobs[|s.jobs|].cancelled && !s2.jobs[|s.jobs|].finished
      && s2.lastJob == Some(|s.jobs| + 1)
      && CompleteStep(s2, |s.jobs|, o).log == s.log + [Sending, Sending, Classify(o)]
  {
  }

  // ---------------------------------------------------------------------------
  // The throttle over a run of calls

  /** Everything that can happen to the sender. */
  datatype Event =
    | SendEvent(now: int, bpm: real)
    | CompleteEvent(id: nat, outcome: Outcome)
    | SetEndpointEvent(url: string)
    | SetListenerEvent
    | ResetEvent

  /** The coroutine runtime finishes only jobs that were launched and have not finished. */
  predicate Enabled(s: SenderState, e: Event) {
    e.CompleteEvent? ==> e.id < |s.jobs| && !s.jobs[e.id].finished
  }

  function Step(s: SenderState, e: Event): SenderState
    requires ValidState(s) && Enabled(s, e)
  {
    match e
    case SendEvent(now, bpm) => SendStep(s, now, bpm)
    case CompleteEvent(id, outcome) => CompleteStep(s, id, outcome)
    case SetEndpointEvent(url) => SetEndpointStep(s, url)
    case SetListenerEvent => SetListenerStep(s)
    case ResetEvent => ResetStep(s)
  }

  /** Consecutive launched jobs carry timestamps at least MIN_INTERVAL_MS apart. */
  ghost predicate Spaced(jobs: seq<Job>) {
    forall i :: 0 <= i < |jobs| - 1 ==> jobs[i].body.timestamp + MinIntervalMs <= jobs[i + 1].body.timestamp
  }

  /** The throttle's invariant while no reset happens: `lastSentAt` is the newest job's timestamp. */
  ghost predicate Throttled(s: SenderState) {
    && ValidState(s)
    && Spaced(s.jobs)
    && (|s.jobs| > 0 ==> s.lastSentAt == s.jobs[|s.jobs| - 1].body.timestamp)
  }

  lemma InitialIsThrottled()
    ensures Throttled(InitialState())
  {
  }

  /** Every event except reset keeps the throttle's invariant. */
  lemma StepKeepsThrottled(s: SenderState, e: Event)
    requires Throttled(s) && Enabled(s, e)
    requires !e.ResetEvent?
    ensures ValidState(Step(s, e))
    ensures Throttled(Step(s, e))
  {
  }

  /** Runs a sequence of events, as long as each one is possible where it happens. */
  function Run(s: SenderState, evs: seq<Event>): Option<SenderState>
    requires ValidState(s)
    decreases |evs|
  {
    if evs == [] then Some(s)
    else if !Enabled(s, evs[0]) then None
    else
      StepKeepsValid(s, evs[0]);
      Run(Step(s, evs[0]), evs[1..])
  }

  lemma StepKeepsValid(s: SenderState, e: Event)
    requires ValidState(s) && Enabled(s, e)
    ensures ValidState(Step(s, e))
  {
  }

  /**
    Over any run without a reset, the jobs already launched are kept, and
    every two jobs are at least MIN_INTERVAL_MS apart in timestamp, whatever
    the order in which the clock readings arrive.
  */
  lemma {:induction false} RunWithoutResetIsThrottled(s: SenderState, evs: seq<Event>)
    requires Throttled(s)
    requires forall k :: 0 <= k < |evs| ==> !evs[k].ResetEvent?
    requires Run(s, evs).Some?
    ensures Throttled(Run(s, evs).value)
    ensures |s.jobs| <= |Run(s, evs).value.jobs|
    decreases |evs|
  {
    if evs != [] {
      StepKeepsThrottled(s, evs[0]);
      var s' := Step(s, evs[0]);
      assert forall k :: 0 <= k < |evs[1..]| ==> !evs[1..][k].ResetEvent? by {
        forall k | 0 <= k < |evs[1..]| ensures !evs[1..][k].ResetEvent? {
          assert evs[1..][k] == evs[k + 1];
        }
      }
      RunWithoutResetIsThrottled(s', evs[1..]);
    }
  }

  /** Neighbour spacing gives spacing between any two jobs: at most one accepted send per interval. */
  lemma {:induction false} SpacedPairwise(jobs: seq<Job>, i: int, j: int)
    requires Spaced(jobs)
    requires 0 <= i < j < |jobs|
    ensures jobs[i].body.timestamp + MinIntervalMs <= jobs[j].body.timestamp
    decreases j - i
  {
    if j > i + 1 {
      SpacedPairwise(jobs, i + 1, j);
      assert jobs[i].body.timestamp + MinIntervalMs <= jobs[i + 1].body.timestamp;
    }
  }

  /** Over a run without a reset, any two launched jobs are MIN_INTERVAL_MS or more apart. */
  lemma RunWithoutResetSpacesAllJobs(s: SenderState, evs: seq<Event>)
    requires Throttled(s)
    requires forall k :: 0 <= k < |evs| ==> !evs[k].ResetEvent?
    requires Run(s, evs).Some?
    ensures var jobs := Run(s, evs).value.jobs;
      forall i, j :: 0 <= i < j < |jobs| ==> jobs[i].body.timestamp + MinIntervalMs <= jobs[j].body.timestamp
  {
    RunWithoutResetIsThrottled(s, evs);
    var jobs := Run(s, evs).value.jobs;
    forall i, j | 0 <= i < j < |jobs|
      ensures jobs[i].body.timestamp + MinIntervalMs <= jobs[j].body.timestamp
    {
      SpacedPairwise(jobs, i, j);
    }
  }
}

=== FILE: statuses.dfy ===
/** The small value types shared by the sender, the permission manager and the screen. */
module Wrappers {

  datatype Option<+T> = None | Some(value: T)
}

/** The measuring pipeline's status, one constructor per enum entry of HeartRateStatus. */
module HeartRateStatuses {

  datatype HeartRateStatus =
    | Init
    | CheckingCapabilities
    | SensorSupported
    | SensorNotSupported
    | RequestingPermissions
    | PermissionsGranted
    | Starting
    | WaitingForData
    | Streaming
    | Stopping
    | Stopped
    | PermissionDenied
    | Error
}

/** The uplink's report of its current network activity. */
module ConnectionStatuses {

  datatype ConnectionStatus = Idle | Sending | Ok | Error
}
